=== FILE: README.md ===
# MREDTools command-line helpers in Dafny

MREDTools is glue for running MRED simulations on a SLURM cluster: a shared
argparse option parser (`parsers.py`), a batch submitter that renders scheduler
scripts (`mredBatch.py`), and a merger that combines the HDF5 outputs of the
parallel runs (`hdf5Cleanup.py`). This project models the deterministic
decisions those scripts make before handing work to external tools:

- **Parsers**: `_nameCheck`'s option-name normalisation, the registry of
  option strings that argparse keeps (with its conflict errors caught and
  logged), the filtering of leftover arguments in `updateOptions` (the
  `-i`/`--init` allow-list and the `*.py` pass that mutates the list it
  iterates over), and the trailing-`/` normalisation of `saveDir`.
- **Batch**: the wall-time and run-time minutes, the node-list directive,
  the injection of `--runName=<name>` into the forwarded arguments, the
  script-name/options split and whether a summarisation job is chained.
- **Merge**: the output directory redirect, the default output name derived
  from the input file names, the output file name, and the attribute rule
  (copy the first file's attributes, then overwrite `nIons` with the sum).

Python's own behaviour is modelled where the scripts depend on it:
`list.remove` (first occurrence), `str.split`/`str.join`,
`os.path.basename`, slicing `s[:-3]`, and the exceptions that escape
(`IndexError` on `name[0]` or `saveDir[-1]` of an empty string).

Files: `outcomes.dfy` (Option/Result/exceptions), `lists.dfy` (`list.remove`,
subsequences), `pytext.dfy` (split/join/basename/slicing), `parsers.dfy`,
`batch.dfy`, `merge.dfy`.

Behaviours of the code that a reader might not expect, all modelled as written:

- `run_0001.hdf5` and `run_0002.hdf5` merge into `TOTAL.hdf5`, not `runTOTAL.hdf5`,
  because `basename("run")[:-3]` is empty (`Merge.ShortPrefixesMergeIntoTotal`). The
  stem is the run name for batch outputs named `<runName><3-digit index>_<n>.hdf5`,
  and for any `<runName><3 characters>_<tail>` in which neither the run name nor the three
  characters contain `/` and the tail contains no `_` (`Merge.StemOfBatchOutput`).
- The default merged name is not a common filename prefix: it is the `_`/basename/`[:-3]`
  stem, and it is used only when every input has the same stem.
- The `.py` pass mutates the list it iterates over. It skips the argument after each
  one it removes, and `list.remove` drops the first equal element, not necessarily the
  one being examined (`Parsers.StripScriptsSkipsNext`, `Parsers.LeftoversFirstCopyExample`).

## Model

| member | source | states |
|---|---|---|
| Lists.RemoveFirst | parsers.py:25 | `list.remove(x)` yields the list with exactly the element at the first index holding `x` cut out |
| Lists.RemoveFirstMultiset | parsers.py:25 | `list.remove(x)` takes exactly one copy of `x` out of the list's multiset |
| Lists.RemoveFirstIsSubseq | parsers.py:25 | `list.remove` keeps every other element in its original order |
| Lists.RemoveFirstShiftsTail | parsers.py:26-29 | removing the first copy of the element at position i shifts every later element down by one position |
| Lists.SubseqTrans | parsers.py:22-29 | being an order-preserving subsequence is transitive, so successive removals compose |
| PyText.Split | mredBatch.py:165 | `s.split(c)` has at least one part, no part contains `c`, and the first part is the prefix of `s` up to the first `c` |
| PyText.Join | hdf5Cleanup.py:56 | `c.join(parts)` starts with the first part, followed by `c` when there is a second part; `PyText.JoinSplit` and `PyText.SplitJoin` make it the inverse of `split` |
| PyText.JoinSplit | hdf5Cleanup.py:56 | `c.join(s.split(c)) == s` for every string |
| PyText.SplitJoin | hdf5Cleanup.py:56 | splitting the join of separator-free parts gives back the parts |
| PyText.BeforeLast | hdf5Cleanup.py:56 | `'_'.join(s.split('_')[:-1])` is empty when `s` has no `_`, and otherwise is the prefix of `s` before its last `_` |
| PyText.Basename | hdf5Cleanup.py:56 | `os.path.basename(p)` is the slash-free suffix of `p` that follows its last `/` |
| PyText.DropLast | hdf5Cleanup.py:56 | `s[:-3]` is empty for strings of length at most 3, and otherwise is the prefix with 3 fewer characters |
| Parsers.NameCheck | parsers.py:54-63 | a non-string gives `False`, an empty string raises IndexError, a name starting with `-` is unchanged, and any other name gets `--` prepended; the result always starts with `-` |
| Parsers.NameCheckIdempotent | parsers.py:54-63 | normalising an already normalised name returns it unchanged |
| Parsers.NameCheckExamples | parsers.py:169 | `files` becomes `--files`, while `-f` and `--runName` stay as they are |
| Parsers.AddOption | parsers.py:76-129 | a registration never changes an existing entry. A non-string name returns `False` from the guarded adders and `None` from the others, and registers nothing. An empty name raises. At most the one normalised flag is added, with the requested type, default and help. Well-formedness of the registry is preserved |
| Parsers.AddOptionRegistersFresh | parsers.py:94-122 | a new flag with a destination is registered with the adder's type and the given default |
| Parsers.AddOptionReAddIsNoOp | parsers.py:98-102 | re-adding a name whose normalised flag is registered leaves the registry, including the existing type and default, unchanged |
| Parsers.AddAll | parsers.py:141-173 | a run of registrations fails exactly when some call has an empty name; otherwise earlier entries are preserved and well-formedness is kept |
| Parsers.ReRegistrationExample | parsers.py:114-122 | `addIntOption("runTime", 1)` and then `addFloatOption("--runTime", 5.0)` leave `--runTime` as an int option with default 1 |
| Parsers.StripFlags | parsers.py:22-25 | stripping the allow-list removes exactly one copy of each listed flag that is present, as a multiset difference, and keeps every other argument in order; for a single flag the copy removed is the first one |
| Parsers.RemoveIfPresent | parsers.py:24-25 | `if a in xs: xs.remove(a)` removes the element at the first index of `a`, and nothing when `a` is absent |
| Parsers.StripFlagsSteps | parsers.py:23-25 | the flag loop is one single-flag removal per listed flag, in list order |
| Parsers.StripFlagsKeepsHead | parsers.py:23-25 | an argument at the front that is not a listed flag stays at the front |
| Parsers.StripScripts | parsers.py:26-29 | the `.py` pass yields an order-preserving subsequence and never changes how often a non-script argument occurs; a script at the iterator's position loses a copy |
| Parsers.IsScript | parsers.py:27-28 | an argument is a script exactly when it is some (possibly empty) text followed by `.py`, three characters at least |
| Parsers.StripScriptsKeepsUnvisited | parsers.py:26-29 | a value that never occurs at or after the iterator's position survives the pass |
| Parsers.StripScriptsSkipsNext | parsers.py:26-29 | when the argument at the iterator's position is a script, the one after it is not examined and survives, even if it is a script too, when its value does not occur again later in the list |
| Parsers.StripScriptsNoScripts | parsers.py:26-29 | a list without script arguments passes the `.py` loop unchanged |
| Parsers.Leftovers | parsers.py:20-29 | the unrecognised arguments are a subsequence of the input. Each non-script argument keeps its count, minus one copy of `-i` and one of `--init`, and a leading script argument loses a copy |
| Parsers.StripAllowedFlags | parsers.py:22-25 | the flag pass removes the first `-i` and then the first `--init` |
| Parsers.LeftoversWithoutScripts | parsers.py:20-29 | without script arguments the leftovers are exactly the input minus the first copy of each allowed flag |
| Parsers.LeadingScriptRemoved | parsers.py:22-29 | a script argument at the front survives the flag pass at the front, so the `.py` loop drops a copy of it |
| Parsers.LeftoversSkipExample | parsers.py:22-29 | `--init a.py b.py -x` leaves `b.py -x` |
| Parsers.LeftoversFirstCopyExample | parsers.py:26-29 | `x.py b.py c b.py` leaves `c b.py`: the earlier copy of `b.py` is the one removed |
| Parsers.NormalizeSaveDir | parsers.py:32-34 | an empty `saveDir` raises IndexError. Otherwise the result ends with `/`, extends the input by at most that `/`, and equals the input exactly when the input already ends with `/` |
| Parsers.NormalizeSaveDirIdempotent | parsers.py:33-34 | normalising twice is the same as normalising once |
| Parsers.SettleSaveDir | parsers.py:32-43 | with a `saveDir` option the outcome is an error or a directory ending in `/`. That is the normalised value unless it could not be created. Then it is `<cwd>/outputData/` if that can be made, and OSError if not |
| Parsers.UpdateOptions | parsers.py:20-49 | `updateOptions` fails only when settling `saveDir` fails; otherwise it returns exactly the filtered leftovers (a subsequence of its input) and the settled directory, which ends with `/` |
| Batch.CeilDiv | mredBatch.py:171 | the integer quotient rounded up: the least `q` with `q * d >= n` |
| Batch.RunTimeMinutes | mredBatch.py:171 | the forwarded `runTime` is the least whole number of minutes covering the requested seconds |
| Batch.WallTimeMinutes | mredBatch.py:171 | the wall time is the least whole number of minutes covering the requested seconds plus 4 minutes |
| Batch.WallTimeIsRunTimePlusFour | mredBatch.py:168-171 | the wall time always exceeds the forwarded run time by exactly 4 minutes |
| Batch.WallTimeMatchesRealCeiling | mredBatch.py:171 | the integer formula equals the exact real `ceil(runTime/60 + 4)` |
| Batch.DefaultRunTimeMinutes | mredBatch.py:44 | the default `runTime` of 900 seconds gives a wall time of 19 and a run time of 15 minutes |
| Batch.CpuInfo | mredBatch.py:68-71 | the directive is the `nehalem:x86` node list exactly when `runTime` < 86400, and plain `x86` otherwise |
| Batch.ArgKey | mredBatch.py:165 | `x.split("=")[0]` is the `=`-free prefix of `x` that ends at its first `=` or at its end |
| Batch.RunNameFlag | mredBatch.py:166 | `'--runName={}'.format(runName)` is the ten characters `--runName=` followed by the run name unchanged |
| Batch.ArgKeys | mredBatch.py:165 | the list comprehension has one key per argument, in order, each the argument's `split("=")[0]` |
| Batch.HasRunName | mredBatch.py:165 | the membership test holds exactly when some argument has the key `--runName` |
| Batch.ArgKeyOfRunNameFlag | mredBatch.py:166 | the appended `--runName=<name>` has key `--runName`, whatever the name contains |
| Batch.InjectRunName | mredBatch.py:165-166 | the flag is appended exactly when no argument's key is `--runName`. Existing arguments are unchanged and keep their order, the length grows by at most one, and afterwards some key is `--runName` |
| Batch.ExplicitRunNameKept | mredBatch.py:165-166 | an argument list that already holds `--runName=<name>`, for any name, comes back unchanged |
| Batch.PlainArgumentsGetRunName | mredBatch.py:165-166 | when no argument contains `=` or equals `--runName`, the flag is appended at the end |
| Batch.SpaceSeparatedRunNameKept | mredBatch.py:165 | a bare `--runName` argument also counts as present, so nothing is appended |
| Batch.FinalTask | mredBatch.py:133-147 | a summarisation job template exists exactly when `cleanupScriptFile` is non-empty |
| Batch.PlanSubmit | mredBatch.py:162-176 | wall time = run time + 4, and the run time is the ceiling in minutes. The node list is `nehalem:x86` below one day and plain `x86` from one day on. The forwarded list is exactly `args` after the `--runName` injection. Script name and options are the head and tail of that post-injection list, so with no `args` the script name is the injected flag. The final task is the summary template when a cleanup module is named and absent otherwise. `runName`, `ulimit_f`, the memory limit, `nCopies`, `configName` and the summarise module and function are passed through unchanged |
| Merge.RedirectSaveDir | hdf5Cleanup.py:28-29 | a `saveDir` whose relative path is `outputData` becomes `combinedHDF5output`; any other is unchanged |
| Merge.Stem | hdf5Cleanup.py:56 | the stem never contains `/`, and a name without `_` has the empty stem |
| Merge.StemSet | hdf5Cleanup.py:56 | `set([...])` holds the stem of every input name and nothing but stems of input names |
| Merge.BeforeLastOf | hdf5Cleanup.py:56 | for `p + "_" + t` with no `_` in `t`, the text before the last `_` is `p` |
| Merge.BasenameWithoutSlash | hdf5Cleanup.py:56 | a path without `/` is its own basename |
| Merge.StemOfBatchOutput | hdf5Cleanup.py:56 | `<runName><3 chars>_<tail>` has stem `runName` when neither `runName` nor the three characters contain `/` and the tail has no `_` |
| Merge.StemOfShortPrefix | hdf5Cleanup.py:56 | a name whose part before the last `_` has at most 3 characters has the empty stem |
| Merge.DefaultSaveName | hdf5Cleanup.py:56-60 | with exactly one distinct stem `s` the name is `s + "TOTAL"`; with zero or several it is `defaultSaveName` |
| Merge.DefaultSaveNameCommonStem | hdf5Cleanup.py:57-58 | if every input has stem `s`, the name is `s + "TOTAL"` |
| Merge.DefaultSaveNameDistinctStems | hdf5Cleanup.py:59-60 | two inputs with different stems give `defaultSaveName` |
| Merge.DefaultSaveNameOrderFree | hdf5Cleanup.py:56-57 | the derived name depends only on the set of input names, not on their order or repetitions |
| Merge.ShortPrefixesMergeIntoTotal | hdf5Cleanup.py:54-58 | inputs like `run_0001.hdf5`, `run_0002.hdf5` get the name `TOTAL` |
| Merge.ResolveSaveName | hdf5Cleanup.py:54-60 | a non-empty `saveName` is never changed; an empty one is replaced by the derived name, which is never empty |
| Merge.OutputFileName | hdf5Cleanup.py:66 | the output file name is `saveName` followed by `.hdf5` |
| Merge.TotalIonsRemove | hdf5Cleanup.py:82 | the total is one file's `nIons` plus the total of the remaining files |
| Merge.TotalIons | hdf5Cleanup.py:82 | `np.sum` of the `nIons` values is 0 for no files; when no count is negative the total is non-negative and at least each file's count |
| Merge.TotalIonsOrderFree | hdf5Cleanup.py:82-83 | the summed `nIons` is the same for any permutation of the input files |
| Merge.CopyAttributes | hdf5Cleanup.py:74-83 | output `nIons` is the given total. Any other key is present exactly when the first file has it and its copy does not fail, and then it holds the first file's value |
| Merge.PlanMerge | hdf5Cleanup.py:28-83 | an empty file list is an error. Otherwise the plan applies the directory redirect and keeps a given `saveName` or derives one. The file name is `saveName + ".hdf5"`. The attributes follow the first file, except that `nIons` is the sum over all files |

## Left out

- Option parsing itself (argparse/optparse matching of the command line): `updateOptions` is modelled from argparse's split into the `saveDir` value and the leftover list.
- Filesystem effects (`os.path.isdir`, `os.makedirs`, `os.mkdir`, `os.rmdir`, `os.listdir`, `os.system("mv killbatch* killFiles")`): they become parameters. These are the `DirCheck` outcome for `saveDir`, the current directory `cwd`, and the `relpath` of the merger's `saveDir`.
- `glob.glob`: the enumerated input files are a given sequence, in the order the glob returned them.
- The `logFiles/<runName>` collision check in `submit`, which raises RuntimeError: it is a filesystem test.
- `splitrun_batch`, the SLURM/PBS template text and its rendering: the templates are the tags `BatchJobTemplate` and `SummaryJobTemplate`.
- `smartAccumulate`, `checkAttrs`, `getAttrDict` and every `mred` engine call: they live in libraries that are not part of this model. Per-file attribute maps and `nIons` values are inputs, and a failing `setFileAttribute` is the input set `failing`.
- Merging histograms and checking binning compatibility, which happen inside `smartAccumulate`.
- `defaultOptions`' full list of registrations, whose `runName` default depends on the clock and whose `saveDir` default depends on the working directory; only the re-registration behaviour is exercised.
- Printing and logging.
- Merge.TotalIons: per-file `nIons` values are unbounded integers and their sum is exact; numpy's fixed-width `np.sum` (int64 wrap-around, or float64 rounding for float attributes) is not modelled.
- Batch.WallTimeMinutes: uses exact integer ceiling division, not `math.ceil` on a Python float, so float rounding for very large `runTime` values is not modelled.
- Python 2 `math.ceil` returning a float rather than an int, which only matters for the `%d` formatting done by the renderer.

=== FILE: batch.dfy ===
/** The values `submit` in mredBatch.py derives from its options before handing
    them to the batch renderer: the scheduler minutes, the node-list directive,
    the forwarded argument list and whether a summarisation job is chained. */
module Batch {
  import opened Outcomes
  import opened PyText

  /** The options `submit` registers with optparse, and their defaults. */
  datatype BatchOptions = BatchOptions(
    runName: string,
    runTime: int,               // requested run time in seconds
    nCopies: int,
    memoryLimit: int,           // in Gb
    cpuType: string,
    ulimitF: int,
    cleanupScriptFile: string,
    cleanupScriptFunction: string,
    configName: string)

  const DefaultBatchOptions := BatchOptions("foo", 900, 1, 16, "x86", 10000, "", "", "current")

  // ---------------------------------------------------------------------------
  // Scheduler minutes
  // ---------------------------------------------------------------------------

  /** The ceiling of `n / d` for a positive divisor, on unbounded integers. */
  function CeilDiv(n: int, d: int): (q: int)
    requires d > 0
    ensures q * d >= n
    ensures (q - 1) * d < n
  {
    -((-n) / d)
  }

  /** `math.ceil(runTime/60.)`: the run time in whole minutes, rounded up. */
  function RunTimeMinutes(runTime: int): (m: int)
    ensures m * 60 >= runTime && (m - 1) * 60 < runTime
  {
    CeilDiv(runTime, 60)
  }

  /** `math.ceil(runTime/60. + 4)`: the four safety minutes are added before rounding. */
  function WallTimeMinutes(runTime: int): (w: int)
    ensures w * 60 >= runTime + 240 && (w - 1) * 60 < runTime + 240
  {
    CeilDiv(runTime + 240, 60)
  }

  /** The wall time always exceeds the forwarded run time by exactly four minutes. */
  lemma WallTimeIsRunTimePlusFour(runTime: int)
    ensures WallTimeMinutes(runTime) == RunTimeMinutes(runTime) + 4
  {
  }

  /** The integer formula agrees with the exact real-valued `ceil(runTime/60 + 4)`. */
  lemma WallTimeMatchesRealCeiling(runTime: int)
    ensures WallTimeMinutes(runTime) == -((-(runTime as real / 60.0 + 4.0)).Floor)
  {
    var q := (-runTime) / 60;
    var m := (-runTime) % 60;
    assert -runTime == 60 * q + m && 0 <= m < 60;
    var x := -(runTime as real / 60.0 + 4.0);
    assert x == (q - 4) as real + m as real / 60.0;
    assert x.Floor == q - 4;
    assert ((-runTime - 240) / 60) == q - 4;
  }

  /** The default request of 900 seconds gives a 19-minute wall time and 15 forwarded minutes. */
  lemma DefaultRunTimeMinutes()
    ensures DefaultBatchOptions.runTime == 900
    ensures WallTimeMinutes(DefaultBatchOptions.runTime) == 19
    ensures RunTimeMinutes(DefaultBatchOptions.runTime) == 15
  {
  }

  // ---------------------------------------------------------------------------
  // Node list
  // ---------------------------------------------------------------------------

  const NehalemNodeList := "##PBS --nodelist=nehalem:x86"
  const PlainNodeList := "##PBS --nodelist=x86"

  /** Jobs shorter than a day are pinned to the nehalem x86 nodes. */
  function CpuInfo(runTime: int): (directive: string)
    ensures directive == NehalemNodeList <==> runTime < 86400
    ensures directive == PlainNodeList <==> runTime >= 86400
  {
    if runTime < 86400 then NehalemNodeList else PlainNodeList
  }

  // ---------------------------------------------------------------------------
  // The forwarded argument list
  // ---------------------------------------------------------------------------

  /** `x.split("=")[0]`: the text before the first `=`, or all of `x`. */
  function ArgKey(x: string): (k: string)
    ensures '=' !in k
    ensures |k| <= |x| && k == x[..|k|]
    ensures |k| < |x| ==> x[|k|] == '='
  {
    Split(x, '=')[0]
  }

  /** The flag `submit` appends: `'--runName={}'.format(runName)`. */
  function RunNameFlag(runName: string): (f: string)
    ensures |f| == |runName| + 10 && f[..10] == "--runName=" && f[10..] == runName
  {
    "--runName=" + runName
  }

  /** The appended flag is recognised as a `--runName` argument. */
  lemma ArgKeyOfRunNameFlag(runName: string)
    ensures ArgKey(RunNameFlag(runName)) == "--runName"
  {
    var x := RunNameFlag(runName);
    var k := ArgKey(x);
    assert x[..9] == "--runName" && x[9] == '=';
    assert forall j :: 0 <= j < 9 ==> x[j] != '=';
  }

  /** An argument without `=` is its own key. */
  lemma ArgKeyWithoutEquals(x: string)
    requires '=' !in x
    ensures ArgKey(x) == x
  {
  }

  /** `[x.split("=")[0] for x in args]`. */
  function ArgKeys(args: seq<string>): (keys: seq<string>)
    ensures |keys| == |args|
    ensures forall i :: 0 <= i < |args| ==> keys[i] == ArgKey(args[i])
  {
    seq(|args|, i requires 0 <= i < |args| => ArgKey(args[i]))
  }

  /** Some argument's key is `--runName`. */
  predicate HasRunName(args: seq<string>)
    ensures HasRunName(args) <==> exists i :: 0 <= i < |args| && ArgKey(args[i]) == "--runName"
  {
    "--runName" in ArgKeys(args)
  }

  /** Appends `--runName=<runName>` unless some argument already sets `--runName`. */
  function InjectRunName(args: seq<string>, runName: string): (r: seq<string>)
    ensures HasRunName(r)
    ensures |args| <= |r| <= |args| + 1 && r[..|args|] == args
    ensures |r| == |args| + 1 <==> !HasRunName(args)
    ensures |r| == |args| + 1 ==> r[|args|] == RunNameFlag(runName)
  {
    if HasRunName(args) then args
    else
      var r := args + [RunNameFlag(runName)];
      ArgKeyOfRunNameFlag(runName);
      assert ArgKeys(r)[|args|] == "--runName";
      r
  }

  /** An explicit `--runName` is never overridden, whatever follows its `=`. */
  lemma ExplicitRunNameKept(args: seq<string>, name: string, runName: string)
    requires RunNameFlag(name) in args
    ensures InjectRunName(args, runName) == args
  {
    var i :| 0 <= i < |args| && args[i] == RunNameFlag(name);
    ArgKeyOfRunNameFlag(name);
    assert ArgKeys(args)[i] == "--runName";
  }

  /** Arguments without `=` that are not `--runName` itself never stop the injection. */
  lemma PlainArgumentsGetRunName(args: seq<string>, runName: string)
    requires forall i :: 0 <= i < |args| ==> '=' !in args[i] && args[i] != "--runName"
    ensures InjectRunName(args, runName) == args + [RunNameFlag(runName)]
  {
    forall i | 0 <= i < |args|
      ensures ArgKeys(args)[i] != "--runName"
    {
      ArgKeyWithoutEquals(args[i]);
    }
  }

  /** A space-separated `--runName <name>` also counts as present: its key is the whole word. */
  lemma SpaceSeparatedRunNameKept(args: seq<string>, runName: string)
    requires "--runName" in args
    ensures InjectRunName(args, runName) == args
  {
    var i :| 0 <= i < |args| && args[i] == "--runName";
    ArgKeyWithoutEquals("--runName");
    assert ArgKeys(args)[i] == "--runName";
  }

  // ---------------------------------------------------------------------------
  // The batch plan
  // ---------------------------------------------------------------------------

  /** The shell-script templates handed to the renderer; their text is not modelled. */
  datatype JobTemplate = BatchJobTemplate | SummaryJobTemplate

  /** `finalTask`: a summarisation job exists only if a cleanup module was named. */
  function FinalTask(cleanupScriptFile: string): (t: Option<JobTemplate>)
    ensures t.Some? <==> cleanupScriptFile != ""
    ensures t.Some? ==> t.value == SummaryJobTemplate
  {
    if |cleanupScriptFile| > 0 then Some(SummaryJobTemplate) else None
  }

  /** The keyword arguments of the `splitrun_batch` call, as far as this code derives them. */
  datatype BatchPlan = BatchPlan(
    wallTime: int,
    runTime: int,
    cpuInfo: string,
    args: seq<string>,          // the list shared by `args` and `passed_variables['args']`
    scriptName: string,
    scriptOptions: seq<string>,
    runName: string,
    ulimitF: int,
    memoryLimitMb: int,
    nCopies: int,
    configName: string,
    summarizeModule: string,
    summarizeFunction: string,
    template: JobTemplate,
    finalTask: Option<JobTemplate>)

  /** `submit` from option parsing to the `splitrun_batch` call. `args` are optparse's
      positional leftovers. The `+=` on the copied dict extends the very list `args`
      names, so the split into script name and options sees the injected flag. */
  function PlanSubmit(o: BatchOptions, args: seq<string>): (p: BatchPlan)
    ensures p.wallTime == p.runTime + 4
    ensures p.runTime * 60 >= o.runTime > (p.runTime - 1) * 60
    ensures p.cpuInfo == (if o.runTime < 86400 then NehalemNodeList else PlainNodeList)
    ensures p.args == InjectRunName(args, o.runName)
    ensures [p.scriptName] + p.scriptOptions == p.args
    ensures |args| > 0 ==> p.scriptName == args[0]
    ensures args == [] ==> p.scriptName == RunNameFlag(o.runName) && p.scriptOptions == []
    ensures p.finalTask == FinalTask(o.cleanupScriptFile)
    ensures p.finalTask.Some? <==> o.cleanupScriptFile != ""  // a corollary of the clause above
    ensures p.runName == o.runName && p.memoryLimitMb == o.memoryLimit && p.nCopies == o.nCopies
    ensures p.ulimitF == o.ulimitF
    ensures p.configName == o.configName
    ensures p.summarizeModule == o.cleanupScriptFile
    ensures p.summarizeFunction == o.cleanupScriptFunction
    ensures p.template == BatchJobTemplate
  {
    var shared := InjectRunName(args, o.runName);
    WallTimeIsRunTimePlusFour(o.runTime);
    assert shared == [shared[0]] + shared[1..];
    BatchPlan(
      wallTime := WallTimeMinutes(o.runTime),
      runTime := RunTimeMinutes(o.runTime),
      cpuInfo := CpuInfo(o.runTime),
      args := shared,
      scriptName := shared[0],
      scriptOptions := shared[1..],
      runName := o.runName,
      ulimitF := o.ulimitF,
      memoryLimitMb := o.memoryLimit,
      nCopies := o.nCopies,
      configName := o.configName,
      summarizeModule := o.cleanupScriptFile,
      summarizeFunction := o.cleanupScriptFunction,
      template := BatchJobTemplate,
      finalTask := FinalTask(o.cleanupScriptFile))
  }
}

=== FILE: lists.dfy ===
/** Python list operations used by the command-line helpers. */
module Lists {

  /** Index of the first element of `xs` equal to `x`. */
  function FirstIndex<T(==)>(xs: seq<T>, x: T): (k: nat)
    requires x in xs
    ensures k < |xs| && xs[k] == x
    ensures forall j :: 0 <= j < k ==> xs[j] != x
  {
    if xs[0] == x then 0 else 1 + FirstIndex(xs[1..], x)
  }

  /** Python's `list.remove(x)`: the list without its first element equal to `x`.
      Python raises ValueError when `x` is absent; every caller checks membership first. */
  function RemoveFirst<T(==)>(xs: seq<T>, x: T): (r: seq<T>)
    requires x in xs
    ensures |r| == |xs| - 1
    ensures r == xs[..FirstIndex(xs, x)] + xs[FirstIndex(xs, x) + 1..]
  {
    if xs[0] == x then xs[1..]
    else [xs[0]] + RemoveFirst(xs[1..], x)
  }

  /** `list.remove(x)` takes exactly one copy of `x` out of the list's multiset. */
  lemma RemoveFirstMultiset<T>(xs: seq<T>, x: T)
    requires x in xs
    ensures multiset(RemoveFirst(xs, x)) == multiset(xs) - multiset{x}
  {
    var k := FirstIndex(xs, x);
    assert xs == xs[..k] + [x] + xs[k + 1..];
  }

  /** `a` is obtained from `b` by deleting elements and keeping the rest in order. */
  predicate IsSubseq<T(==)>(a: seq<T>, b: seq<T>)
    decreases |b|
  {
    if |a| == 0 then true
    else if |b| == 0 then false
    else if a[0] == b[0] then IsSubseq(a[1..], b[1..])
    else IsSubseq(a, b[1..])
  }

  lemma {:induction false} SubseqRefl<T>(a: seq<T>)
    ensures IsSubseq(a, a)
    decreases |a|
  {
    if |a| > 0 {
      SubseqRefl(a[1..]);
    }
  }

  /** Prepending an element to the longer sequence keeps a subsequence. */
  lemma {:induction false} SubseqConsRight<T>(a: seq<T>, b: seq<T>, y: T)
    requires IsSubseq(a, b)
    ensures IsSubseq(a, [y] + b)
    decreases |b|, 1
  {
    var yb := [y] + b;
    assert yb[1..] == b;
    if |a| > 0 && a[0] == y {
      SubseqDropHead(a, b);
    }
  }

  /** Dropping the head of the shorter sequence keeps a subsequence. */
  lemma {:induction false} SubseqDropHead<T>(a: seq<T>, b: seq<T>)
    requires |a| > 0 && IsSubseq(a, b)
    ensures IsSubseq(a[1..], b)
    decreases |b|, 0
  {
    assert b == [b[0]] + b[1..];
    if a[0] == b[0] {
      SubseqConsRight(a[1..], b[1..], b[0]);
    } else {
      SubseqDropHead(a, b[1..]);
      SubseqConsRight(a[1..], b[1..], b[0]);
    }
  }

  lemma {:induction false} SubseqTrans<T>(a: seq<T>, b: seq<T>, c: seq<T>)
    requires IsSubseq(a, b) && IsSubseq(b, c)
    ensures IsSubseq(a, c)
    decreases |c|
  {
    if |a| > 0 {
      if b[0] == c[0] {
        if a[0] == b[0] {
          SubseqTrans(a[1..], b[1..], c[1..]);
        } else {
          SubseqTrans(a, b[1..], c[1..]);
        }
      } else {
        SubseqTrans(a, b, c[1..]);
        if a[0] == c[0] {
          SubseqDropHead(a, c[1..]);
        }
      }
    }
  }

  /** `list.remove` keeps the remaining elements in their original order. */
  lemma {:induction false} RemoveFirstIsSubseq<T>(xs: seq<T>, x: T)
    requires x in xs
    ensures IsSubseq(RemoveFirst(xs, x), xs)
    decreases |xs|
  {
    if xs[0] == x {
      SubseqRefl(xs[1..]);
      SubseqConsRight(xs[1..], xs[1..], xs[0]);
      assert [xs[0]] + xs[1..] == xs;
    } else {
      RemoveFirstIsSubseq(xs[1..], x);
      var r := RemoveFirst(xs, x);
      assert r[0] == xs[0] && r[1..] == RemoveFirst(xs[1..], x);
    }
  }

  /** Removing the first copy of `xs[i]` shifts everything after position `i` down by one. */
  lemma {:induction false} RemoveFirstShiftsTail<T>(xs: seq<T>, i: nat)
    requires i < |xs|
    ensures RemoveFirst(xs, xs[i])[i..] == xs[i + 1..]
    decreases i
  {
    var x := xs[i];
    if xs[0] != x {
      RemoveFirstShiftsTail(xs[1..], i - 1);
      var r := RemoveFirst(xs, x);
      assert r == [xs[0]] + RemoveFirst(xs[1..], x);
      assert r[i..] == RemoveFirst(xs[1..], x)[i - 1..];
    }
  }

  /** `list.remove(x)` keeps every value other than `x`. */
  lemma RemoveFirstKeepsOthers<T>(xs: seq<T>, x: T, v: T)
    requires x in xs && v in xs && v != x
    ensures v in RemoveFirst(xs, x)
  {
    RemoveFirstMultiset(xs, x);
    assert multiset(RemoveFirst(xs, x))[v] == multiset(xs)[v];
  }
}

=== FILE: merge.dfy ===
/** The decisions hdf5Cleanup.py makes around the merge: where and under which
    name the combined file is written, and which file attributes it carries.
    Histogram accumulation itself happens in a library that is not part of this model. */
module Merge {
  import opened Outcomes
  import opened Lists
  import opened PyText

  // ---------------------------------------------------------------------------
  // Output location and name
  // ---------------------------------------------------------------------------

  /** The parser's default output folder is replaced by the merger's own. `rel` is
      `os.path.relpath(saveDir)`, which depends on the working directory. */
  function RedirectSaveDir(saveDir: string, rel: string): (d: string)
    ensures rel == "outputData" ==> d == "combinedHDF5output"
    ensures rel != "outputData" ==> d == saveDir
  {
    if rel == "outputData" then "combinedHDF5output" else saveDir
  }

  /** `os.path.basename('_'.join(fname.split("_")[:-1]))[:-3]`: the run name a batch
      output file carries before its three-digit index and the last `_` field. */
  function Stem(fname: string): (s: string)
    ensures '/' !in s
    ensures '_' !in fname ==> s == ""
    ensures |s| <= |fname|
  {
    DropLast(Basename(BeforeLast(fname, '_')), 3)
  }

  /** The set built by `set([... for fname in fileNames])`. */
  function StemSet(names: seq<string>): (stems: set<string>)
    ensures forall i :: 0 <= i < |names| ==> Stem(names[i]) in stems
    ensures forall s :: s in stems ==> exists i :: 0 <= i < |names| && Stem(names[i]) == s
  {
    set f | f in names :: Stem(f)
  }

  const FallbackSaveName := "defaultSaveName"

  /** The name chosen when `--saveName` is empty: `<stem>TOTAL` if all inputs share one
      stem, the fallback otherwise (also for an empty list). */
  function DefaultSaveName(names: seq<string>): (r: string)
    ensures forall s :: StemSet(names) == {s} ==> r == s + "TOTAL"
    ensures |StemSet(names)| != 1 ==> r == FallbackSaveName
  {
    var stems := StemSet(names);
    if |stems| == 1 then
      assert Stem(names[0]) in stems;
      SingletonSet(stems, Stem(names[0]));
      Stem(names[0]) + "TOTAL"
    else
      FallbackSaveName
  }

  /** All inputs sharing one stem give `<stem>TOTAL`. */
  lemma DefaultSaveNameCommonStem(names: seq<string>, s: string)
    requires |names| > 0
    requires forall i :: 0 <= i < |names| ==> Stem(names[i]) == s
    ensures DefaultSaveName(names) == s + "TOTAL"
  {
    CommonStemSet(names, s);
  }

  /** Inputs sharing one stem have that stem as their only one. */
  lemma CommonStemSet(names: seq<string>, s: string)
    requires |names| > 0
    requires forall i :: 0 <= i < |names| ==> Stem(names[i]) == s
    ensures StemSet(names) == {s}
  {
    var stems := StemSet(names);
    assert s in stems by {
      assert Stem(names[0]) == s;
    }
    forall x | x in stems
      ensures x == s
    {
      var k :| 0 <= k < |names| && Stem(names[k]) == x;
    }
    OnlyMember(stems, s);
  }

  /** A set holding `s` and nothing else is `{s}`. */
  lemma OnlyMember(stems: set<string>, s: string)
    requires s in stems && forall x :: x in stems ==> x == s
    ensures stems == {s}
  {
  }

  /** Two inputs with different stems give the fallback name. */
  lemma DefaultSaveNameDistinctStems(names: seq<string>, i: nat, j: nat)
    requires i < |names| && j < |names| && Stem(names[i]) != Stem(names[j])
    ensures DefaultSaveName(names) == FallbackSaveName
  {
    var a, b := Stem(names[i]), Stem(names[j]);
    assert a in StemSet(names) && b in StemSet(names);
    TwoMembers(StemSet(names), a, b);
  }

  /** A set holding two different values is not a singleton. */
  lemma TwoMembers(s: set<string>, a: string, b: string)
    requires a in s && b in s && a != b
    ensures |s| != 1
  {
    if |s| == 1 {
      SingletonSet(s, a);
    }
  }

  /** A one-element set is the singleton of any of its members. */
  lemma SingletonSet(s: set<string>, x: string)
    requires |s| == 1 && x in s
    ensures s == {x}
  {
    assert |s - {x}| == 0;
  }

  /** The derived name depends only on the set of input names: reordering or
      repeating files does not change it. */
  lemma DefaultSaveNameOrderFree(a: seq<string>, b: seq<string>)
    requires forall x :: x in a <==> x in b
    ensures DefaultSaveName(a) == DefaultSaveName(b)
  {
    assert StemSet(a) == StemSet(b);
    if |StemSet(a)| == 1 {
      var s :| s in StemSet(a);
      SingletonSet(StemSet(a), s);
    }
  }

  /** An explicit `--saveName` is kept; an empty one is derived from the inputs. */
  function ResolveSaveName(saveName: string, names: seq<string>): (r: string)
    ensures saveName != "" ==> r == saveName
    ensures saveName == "" ==> r == DefaultSaveName(names)
    ensures r != ""
  {
    if saveName != "" then saveName else DefaultSaveName(names)
  }

  /** `saveName + '.hdf5'`. */
  function OutputFileName(saveName: string): (f: string)
    ensures |f| == |saveName| + 5 && f[..|saveName|] == saveName && f[|saveName|..] == ".hdf5"
  {
    saveName + ".hdf5"
  }

  /** The text before the last separator of `p + [c] + t`, when `t` has none. */
  lemma BeforeLastOf(p: string, t: string, c: char)
    requires c !in t
    ensures BeforeLast(p + [c] + t, c) == p
  {
    var s := p + [c] + t;
    var r := BeforeLast(s, c);
    assert s[|p|] == c;
  }

  /** A path without `/` is its own basename. */
  lemma BasenameWithoutSlash(p: string)
    requires '/' !in p
    ensures Basename(p) == p
  {
  }

  /** Batch output files `<runName><index:03d>_<n>.hdf5` have the stem `runName`. */
  lemma StemOfBatchOutput(runName: string, index: string, tail: string)
    requires |index| == 3 && '/' !in runName + index && '_' !in tail
    ensures Stem(runName + index + "_" + tail) == runName
  {
    BeforeLastOf(runName + index, tail, '_');
    BasenameWithoutSlash(runName + index);
    assert (runName + index)[..|runName|] == runName;
  }

  /** A name whose part before the last `_` has at most three characters has the empty
      stem, as `run_0001.hdf5` does. */
  lemma StemOfShortPrefix(prefix: string, tail: string)
    requires |prefix| <= 3 && '/' !in prefix && '_' !in tail
    ensures Stem(prefix + "_" + tail) == ""
  {
    BeforeLastOf(prefix, tail, '_');
    BasenameWithoutSlash(prefix);
  }

  /** So `run_0001.hdf5` and `run_0002.hdf5` are merged under the name `TOTAL`. */
  lemma ShortPrefixesMergeIntoTotal(prefix: string, tail1: string, tail2: string)
    requires |prefix| <= 3 && '/' !in prefix && '_' !in tail1 && '_' !in tail2
    ensures DefaultSaveName([prefix + "_" + tail1, prefix + "_" + tail2]) == "TOTAL"
  {
    var names := [prefix + "_" + tail1, prefix + "_" + tail2];
    forall i | 0 <= i < |names|
      ensures Stem(names[i]) == ""
    {
      if i == 0 {
        StemOfShortPrefix(prefix, tail1);
      } else {
        StemOfShortPrefix(prefix, tail2);
      }
    }
    DefaultSaveNameCommonStem(names, "");
    assert "" + "TOTAL" == "TOTAL";
  }

  // ---------------------------------------------------------------------------
  // File attributes
  // ---------------------------------------------------------------------------

  /** A scalar file attribute, as `.item()` returns it. */
  datatype Attr = IntAttr(i: int) | FloatAttr(x: real) | TextAttr(s: string)

  /** One input file: its name, its attribute table and its `nIons` count. */
  datatype SourceFile = SourceFile(name: string, attrs: map<string, Attr>, nIons: int)

  /** `np.sum` of the per-file `nIons` values. */
  function TotalIons(files: seq<SourceFile>): (total: int)
    ensures |files| == 0 ==> total == 0
    ensures (forall i :: 0 <= i < |files| ==> files[i].nIons >= 0) ==>
      total >= 0 && forall i :: 0 <= i < |files| ==> files[i].nIons <= total
    decreases |files|
  {
    if |files| == 0 then 0 else files[0].nIons + TotalIons(files[1..])
  }

  /** Taking one file out of the list takes its count out of the total. */
  lemma {:induction false} TotalIonsRemove(files: seq<SourceFile>, f: SourceFile)
    requires f in files
    ensures TotalIons(files) == f.nIons + TotalIons(RemoveFirst(files, f))
    decreases |files|
  {
    if files[0] != f {
      TotalIonsRemove(files[1..], f);
      assert RemoveFirst(files, f) == [files[0]] + RemoveFirst(files[1..], f);
      assert ([files[0]] + RemoveFirst(files[1..], f))[1..] == RemoveFirst(files[1..], f);
    }
  }

  /** The summed `nIons` does not depend on the order the files were listed in. */
  lemma {:induction false} TotalIonsOrderFree(a: seq<SourceFile>, b: seq<SourceFile>)
    requires multiset(a) == multiset(b)
    ensures TotalIons(a) == TotalIons(b)
    decreases |a|
  {
    if |a| > 0 {
      var f := a[0];
      SameMultisetTail(a, b);
      TotalIonsRemove(b, f);
      TotalIonsOrderFree(a[1..], RemoveFirst(b, f));
    } else {
      assert |multiset(b)| == 0;
    }
  }

  /** Dropping the head of one list and its first copy from a permutation of it
      leaves two permutations of each other. */
  lemma SameMultisetTail(a: seq<SourceFile>, b: seq<SourceFile>)
    requires |a| > 0 && multiset(a) == multiset(b)
    ensures a[0] in b && multiset(a[1..]) == multiset(RemoveFirst(b, a[0]))
  {
    var f := a[0];
    assert a == [f] + a[1..];
    assert f in multiset(b);
    RemoveFirstMultiset(b, f);
    assert multiset(a[1..]) == multiset(a) - multiset{f};
  }

  /** The attribute writes of the merge: every attribute of the first file, except those
      whose `setFileAttribute` call fails (`failing`), then `nIons` set to the total. */
  method CopyAttributes(first: map<string, Attr>, failing: set<string>, totalIons: int)
    returns (out: map<string, Attr>)
    ensures "nIons" in out && out["nIons"] == IntAttr(totalIons)
    ensures forall k :: k != "nIons" ==> (k in out <==> k in first && k !in failing)
    ensures forall k :: k in out && k != "nIons" ==> out[k] == first[k]
  {
    out := map[];
    var pending := first.Keys;
    while pending != {}
      invariant pending <= first.Keys
      invariant forall k :: k in out <==> k in first && k !in pending && k !in failing
      invariant forall k :: k in out ==> k in first && out[k] == first[k]
      decreases pending
    {
      var k :| k in pending;
      if k !in failing {
        out := out[k := first[k]];
      }
      pending := pending - {k};
    }
    out := out["nIons" := IntAttr(totalIons)];
  }

  // ---------------------------------------------------------------------------
  // The merge plan
  // ---------------------------------------------------------------------------

  datatype MergeOptions = MergeOptions(saveName: string, saveDir: string)

  datatype MergePlan = MergePlan(
    saveDir: string,
    saveName: string,
    fileName: string,
    attributes: map<string, Attr>)

  datatype MergeError = NoInputFiles  // `fileNames[0]` on an empty list

  function Names(files: seq<SourceFile>): (names: seq<string>)
    ensures |names| == |files| && forall i :: 0 <= i < |files| ==> names[i] == files[i].name
  {
    seq(|files|, i requires 0 <= i < |files| => files[i].name)
  }

  /** The merger after option parsing. `files` is the enumerated input list (the glob
      result or the explicit list), `rel` is `os.path.relpath(saveDir)` and `failing`
      the attributes whose copy raises. */
  method PlanMerge(o: MergeOptions, rel: string, files: seq<SourceFile>, failing: set<string>)
    returns (r: Result<MergePlan, MergeError>)
    ensures r.Err? <==> files == []
    ensures r.Ok? ==> r.value.saveDir == (if rel == "outputData" then "combinedHDF5output" else o.saveDir)
    ensures r.Ok? && o.saveName != "" ==> r.value.saveName == o.saveName
    ensures r.Ok? && o.saveName == "" ==> r.value.saveName == DefaultSaveName(Names(files))
    ensures r.Ok? ==> r.value.fileName == r.value.saveName + ".hdf5"
    ensures r.Ok? ==> "nIons" in r.value.attributes && r.value.attributes["nIons"] == IntAttr(TotalIons(files))
    ensures r.Ok? ==> forall k :: k != "nIons" ==>
      (k in r.value.attributes <==> k in files[0].attrs && k !in failing)
    ensures r.Ok? ==> forall k :: k in r.value.attributes && k != "nIons" ==>
      r.value.attributes[k] == files[0].attrs[k]
  {
    var saveDir := RedirectSaveDir(o.saveDir, rel);
    if |files| == 0 {
      return Err(NoInputFiles);
    }
    var attrs := files[0].attrs;
    var saveName := ResolveSaveName(o.saveName, Names(files));
    var total := TotalIons(files);
    var out := CopyAttributes(attrs, failing, total);
    r := Ok(MergePlan(saveDir, saveName, OutputFileName(saveName), out));
  }
}

=== FILE: outcomes.dfy ===
/** Option and Result values, and the Python exceptions that can escape
    from the modelled functions. */
module Outcomes {

  datatype Option<+T> = None | Some(value: T)

  datatype Result<+T, +E> = Ok(value: T) | Err(error: E)

  /** Built-in Python exceptions raised, and not caught, by the modelled code. */
  datatype PyException =
    | IndexError  // subscripting an empty str or list
    | OSError     // a directory could not be created
}

=== FILE: parsers.dfy ===
/** The shared option parser of parsers.py: option-name normalisation, the
    registry that argparse keeps of registered option strings, and the
    post-parse clean-up done by `updateOptions`. */
module Parsers {
  import opened Outcomes
  import opened Lists

  // ---------------------------------------------------------------------------
  // Option names
  // ---------------------------------------------------------------------------

  /** What a caller hands to `_nameCheck`: a Python str, or any other object. */
  datatype PyName = Str(text: string) | NotStr

  /** `_nameCheck`. `Ok(None)` is the `False` returned for a non-string;
      an empty string raises IndexError at `name[0]`. */
  function NameCheck(name: PyName): (r: Result<Option<string>, PyException>)
    ensures name.NotStr? <==> r == Ok(None)
    ensures name == Str("") <==> r == Err(IndexError)
    ensures name.Str? && name.text != "" ==>
      && r.Ok? && r.value.Some?
      && |r.value.value| > 0 && r.value.value[0] == '-'
      && (name.text[0] == '-' ==> r.value.value == name.text)
      && (name.text[0] != '-' ==> r.value.value == "--" + name.text)
  {
    match name
    case NotStr => Ok(None)
    case Str(s) =>
      if |s| == 0 then Err(IndexError)
      else if s[0] != '-' then
        var once := "-" + s;
        Ok(Some(if once[1] != '-' then "-" + once else once))
      else Ok(Some(s))
  }

  /** Normalising an already normalised name changes nothing. */
  lemma NameCheckIdempotent(s: string, flag: string)
    requires NameCheck(Str(s)) == Ok(Some(flag))
    ensures NameCheck(Str(flag)) == Ok(Some(flag))
  {
  }

  /** Bare names gain `--`; `-f`, registered by `defaultOptions`, keeps its single hyphen. */
  lemma NameCheckExamples()
    ensures NameCheck(Str("files")) == Ok(Some("--files"))
    ensures NameCheck(Str("-f")) == Ok(Some("-f"))
    ensures NameCheck(Str("--runName")) == Ok(Some("--runName"))
  {
    assert "--" + "files" == "--files";
  }

  // ---------------------------------------------------------------------------
  // The option registry
  // ---------------------------------------------------------------------------

  /** The conversion callable argparse applies to an option's argument. */
  datatype Converter = PyStr | PyInt | PyFloat | PyCallable(callableName: string)

  datatype OptionKind =
    | HelpAction                      // the -h/--help action argparse starts with
    | StrOption | FloatOption | IntOption
    | BoolOption                      // action="store_true"
    | ArrayOption(elem: Converter)    // nargs="+"
    | TypedOption(convert: Converter) // `addOption` with an explicit type

  /** Default values; floats are kept as reals, no arithmetic is done on them. */
  datatype Value =
    | NoValue
    | StrVal(s: string)
    | IntVal(i: int)
    | FloatVal(x: real)
    | BoolVal(b: bool)
    | ListVal(items: seq<Value>)

  datatype OptionSpec = OptionSpec(kind: OptionKind, default: Value, help: string)

  /** Registered option strings; argparse refuses to register one twice. */
  type Registry = map<string, OptionSpec>

  const HelpSpec := OptionSpec(HelpAction, NoValue, "show this help message and exit")

  /** A fresh `argparse.ArgumentParser()` already owns `-h` and `--help`. */
  const FreshParser: Registry := map["-h" := HelpSpec, "--help" := HelpSpec]

  /** argparse derives `dest` by stripping leading hyphens; an empty dest is a ValueError. */
  predicate HasDest(flag: string) {
    exists i | 0 <= i < |flag| :: flag[i] != '-'
  }

  predicate WellFormedFlag(flag: string) {
    |flag| > 0 && flag[0] == '-' && HasDest(flag)
  }

  /** Every registered option string is an optional flag with a destination. */
  predicate WellFormed(reg: Registry) {
    forall f | f in reg :: WellFormedFlag(f)
  }

  /** The registration helpers of parsers.py. */
  datatype Adder =
    | AddStr | AddFloat | AddInt
    | AddBool
    | AddArray(elem: Converter)
    | AddTyped(convert: Converter)

  /** `addStrOption`, `addFloatOption` and `addIntOption` return False on a rejected name
      before touching the parser; the other helpers pass it on to argparse. */
  predicate Guarded(a: Adder) {
    a.AddStr? || a.AddFloat? || a.AddInt?
  }

  function KindOf(a: Adder): OptionKind {
    match a
    case AddStr => StrOption
    case AddFloat => FloatOption
    case AddInt => IntOption
    case AddBool => BoolOption
    case AddArray(e) => ArrayOption(e)
    case AddTyped(t) => TypedOption(t)
  }

  /** One call of a registration helper. */
  datatype AddCall = AddCall(adder: Adder, name: PyName, default: Value, help: string)

  /** What a registration helper returns: `False` or the implicit `None`. */
  datatype Returned = ReturnedFalse | ReturnedNone

  /** One registration call. Every argparse failure (a conflicting option string,
      an empty dest, `add_argument(False, …)`) is caught, logged and leaves the
      registry as it was; only `_nameCheck`'s IndexError escapes. */
  function AddOption(reg: Registry, call: AddCall): (r: Result<(Registry, Returned), PyException>)
    ensures r.Err? <==> call.name == Str("")
    ensures call.name.NotStr? ==> r.Ok? && r.value.0 == reg
    ensures r.Ok? ==> (r.value.1 == ReturnedFalse <==> call.name.NotStr? && Guarded(call.adder))
    ensures r.Ok? ==> forall f | f in reg :: f in r.value.0 && r.value.0[f] == reg[f]
    ensures r.Ok? ==> forall f | f in r.value.0 && f !in reg ::
      && call.name.Str? && call.name.text != ""
      && NameCheck(call.name) == Ok(Some(f))
      && r.value.0[f] == OptionSpec(KindOf(call.adder), call.default, call.help)
      && r.value.0 == reg[f := r.value.0[f]]
    ensures r.Ok? && WellFormed(reg) ==> WellFormed(r.value.0)
  {
    match NameCheck(call.name)
    case Err(e) => Err(e)
    case Ok(None) =>
      if Guarded(call.adder) then Ok((reg, ReturnedFalse)) else Ok((reg, ReturnedNone))
    case Ok(Some(flag)) =>
      if flag in reg || !HasDest(flag) then Ok((reg, ReturnedNone))
      else Ok((reg[flag := OptionSpec(KindOf(call.adder), call.default, call.help)], ReturnedNone))
  }

  /** A new, valid name is registered with the requested type and default. */
  lemma AddOptionRegistersFresh(reg: Registry, call: AddCall, flag: string)
    requires NameCheck(call.name) == Ok(Some(flag))
    requires flag !in reg && HasDest(flag)
    ensures AddOption(reg, call) == Ok((reg[flag := OptionSpec(KindOf(call.adder), call.default, call.help)], ReturnedNone))
  {
  }

  /** Re-adding a name whose normalised flag is registered changes nothing. */
  lemma AddOptionReAddIsNoOp(reg: Registry, call: AddCall, flag: string)
    requires NameCheck(call.name) == Ok(Some(flag)) && flag in reg
    ensures AddOption(reg, call) == Ok((reg, ReturnedNone))
  {
  }

  /** A sequence of registration calls, in order; the first IndexError ends it. */
  function AddAll(reg: Registry, calls: seq<AddCall>): (r: Result<Registry, PyException>)
    ensures r.Err? <==> exists i :: 0 <= i < |calls| && calls[i].name == Str("")
    ensures r.Ok? ==> forall f | f in reg :: f in r.value && r.value[f] == reg[f]
    ensures r.Ok? && WellFormed(reg) ==> WellFormed(r.value)
    decreases |calls|
  {
    if |calls| == 0 then Ok(reg)
    else
      match AddOption(reg, calls[0])
      case Err(e) => Err(e)
      case Ok((next, _)) =>
        var r := AddAll(next, calls[1..]);
        assert forall i :: 1 <= i < |calls| ==> calls[i] == calls[1..][i - 1];
        r
  }

  /** One fresh registration at the head of a sequence of calls. */
  lemma AddAllFreshStep(reg: Registry, calls: seq<AddCall>, flag: string)
    requires |calls| > 0 && NameCheck(calls[0].name) == Ok(Some(flag))
    requires flag !in reg && HasDest(flag)
    ensures AddAll(reg, calls) == AddAll(reg[flag := OptionSpec(KindOf(calls[0].adder), calls[0].default, calls[0].help)], calls[1..])
  {
  }

  /** `addIntOption("runTime", 1)` registers `--runTime`; a later
      `addFloatOption("--runTime", 5.0)` is logged and ignored, so type and default stay. */
  lemma ReRegistrationExample()
    ensures AddAll(FreshParser, [AddCall(AddInt, Str("runTime"), IntVal(1), ""),
                                AddCall(AddFloat, Str("--runTime"), FloatVal(5.0), "later")])
         == Ok(FreshParser["--runTime" := OptionSpec(IntOption, IntVal(1), "")])
  {
    var calls := [AddCall(AddInt, Str("runTime"), IntVal(1), ""),
                  AddCall(AddFloat, Str("--runTime"), FloatVal(5.0), "later")];
    var reg := FreshParser["--runTime" := OptionSpec(IntOption, IntVal(1), "")];
    assert "--" + "runTime" == "--runTime";
    assert "--runTime"[2] != '-';
    AddAllFreshStep(FreshParser, calls, "--runTime");
    assert calls[1..][1..] == [];
    assert AddOption(reg, calls[1]) == Ok((reg, ReturnedNone));
  }

  // ---------------------------------------------------------------------------
  // Leftover command-line arguments
  // ---------------------------------------------------------------------------

  /** Flags `updateOptions` silently accepts: they are not reported as unrecognised. */
  const AllowedFlags: seq<string> := ["-i", "--init"]

  /** Removing one occurrence of `a`, then `rest`, removes the multiset `[a] + rest`. */
  lemma MultisetMinusCons(m: multiset<string>, a: string, rest: seq<string>)
    requires a in m
    ensures m - multiset{a} - multiset(rest) == m - multiset([a] + rest)
  {
    assert multiset([a] + rest) == multiset{a} + multiset(rest);
  }

  /** Removing `a` when it is absent removes nothing. */
  lemma MultisetMinusAbsent(m: multiset<string>, a: string, rest: seq<string>)
    requires a !in m
    ensures m - multiset(rest) == m - multiset([a] + rest)
  {
    assert multiset([a] + rest) == multiset{a} + multiset(rest);
  }

  /** `if a in xs: xs.remove(a)`: the first copy of `a` goes, if there is one. */
  function RemoveIfPresent(xs: seq<string>, a: string): (r: seq<string>)
    ensures a !in xs ==> r == xs
    ensures a in xs ==> r == xs[..FirstIndex(xs, a)] + xs[FirstIndex(xs, a) + 1..]
  {
    if a in xs then RemoveFirst(xs, a) else xs
  }

  /** `for a in flags: if a in remaining: remaining.remove(a)`. */
  function StripFlags(remaining: seq<string>, flags: seq<string>): (r: seq<string>)
    ensures IsSubseq(r, remaining)
    ensures multiset(r) == multiset(remaining) - multiset(flags)
    ensures |flags| == 1 ==> r == RemoveIfPresent(remaining, flags[0])
    decreases |flags|
  {
    if |flags| == 0 then
      SubseqRefl(remaining);
      remaining
    else
      var a := flags[0];
      var rest := flags[1..];
      assert flags == [a] + rest;
      if a in remaining then
        var next := RemoveFirst(remaining, a);
        var r := StripFlags(next, rest);
        RemoveFirstIsSubseq(remaining, a);
        RemoveFirstMultiset(remaining, a);
        SubseqTrans(r, next, remaining);
        MultisetMinusCons(multiset(remaining), a, rest);
        r
      else
        var r := StripFlags(remaining, rest);
        MultisetMinusAbsent(multiset(remaining), a, rest);
        r
  }

  /** The loop over `flags` is one first-copy removal per flag, in the order listed. */
  lemma {:induction false} StripFlagsSteps(remaining: seq<string>, a: string, rest: seq<string>)
    ensures StripFlags(remaining, [a] + rest) == StripFlags(StripFlags(remaining, [a]), rest)
  {
    var flags := [a] + rest;
    assert flags[0] == a && flags[1..] == rest;
    assert [a][1..] == [];
  }

  /** A leading argument that is not one of the flags stays at the front. */
  lemma {:induction false} StripFlagsKeepsHead(remaining: seq<string>, flags: seq<string>)
    requires |remaining| > 0 && remaining[0] !in flags
    ensures var r := StripFlags(remaining, flags); |r| > 0 && r[0] == remaining[0]
    decreases |flags|
  {
    if |flags| > 0 {
      var a := flags[0];
      assert remaining[0] !in flags[1..];
      if a in remaining {
        var next := RemoveFirst(remaining, a);
        assert next == [remaining[0]] + RemoveFirst(remaining[1..], a);
        StripFlagsKeepsHead(next, flags[1..]);
      } else {
        StripFlagsKeepsHead(remaining, flags[1..]);
      }
    }
  }

  /** An argument longer than two characters whose last three are `.py`. */
  predicate IsScript(arg: string)
    ensures IsScript(arg) <==> |arg| >= 3 && arg[..|arg| - 3] + ".py" == arg
  {
    |arg| > 2 && arg[|arg| - 3..] == ".py"
  }

  /** `for r in remaining: if len(r) > 2 and r[-3:] == '.py': remaining.remove(r)`,
      following Python's list iterator: position `i` advances by one after every
      element, also after a removal has shifted the later elements down by one. */
  function StripScripts(xs: seq<string>, i: nat): (r: seq<string>)
    ensures IsSubseq(r, xs)
    ensures multiset(r) <= multiset(xs)
    ensures forall x :: !IsScript(x) ==> multiset(r)[x] == multiset(xs)[x]
    ensures i < |xs| && IsScript(xs[i]) ==> multiset(r)[xs[i]] < multiset(xs)[xs[i]]
    decreases |xs| - i
  {
    if i >= |xs| then
      SubseqRefl(xs);
      xs
    else if IsScript(xs[i]) then
      var next := RemoveFirst(xs, xs[i]);
      var r := StripScripts(next, i + 1);
      RemoveFirstIsSubseq(xs, xs[i]);
      RemoveFirstMultiset(xs, xs[i]);
      SubseqTrans(r, next, xs);
      ScriptRemovalCounts(xs, next, r, xs[i]);
      r
    else
      StripScripts(xs, i + 1)
  }

  /** Counting after one script removal followed by a pass that keeps non-scripts. */
  lemma ScriptRemovalCounts(xs: seq<string>, next: seq<string>, r: seq<string>, x: string)
    requires x in xs && IsScript(x)
    requires multiset(next) == multiset(xs) - multiset{x}
    requires multiset(r) <= multiset(next)
    requires forall y :: !IsScript(y) ==> multiset(r)[y] == multiset(next)[y]
    ensures multiset(r) <= multiset(xs)
    ensures multiset(r)[x] < multiset(xs)[x]
    ensures forall y :: !IsScript(y) ==> multiset(r)[y] == multiset(xs)[y]
  {
    assert multiset(next)[x] == multiset(xs)[x] - 1;
  }

  /** One removal step keeps `v` and keeps it out of the positions still to be visited. */
  lemma RemovalKeepsUnvisited(xs: seq<string>, i: nat, v: string)
    requires i < |xs| && v in xs
    requires forall j :: i <= j < |xs| ==> xs[j] != v
    ensures var next := RemoveFirst(xs, xs[i]);
      v in next && forall j :: i + 1 <= j < |next| ==> next[j] != v
  {
    var next := RemoveFirst(xs, xs[i]);
    RemoveFirstKeepsOthers(xs, xs[i], v);
    RemoveFirstShiftsTail(xs, i);
    assert forall j :: i + 1 <= j < |next| ==> next[j] == xs[j + 1];
  }

  /** A value that occurs in the list but not at or after the iterator's position survives. */
  lemma {:induction false} StripScriptsKeepsUnvisited(xs: seq<string>, i: nat, v: string)
    requires v in xs
    requires forall j :: i <= j < |xs| ==> xs[j] != v
    ensures v in StripScripts(xs, i)
    decreases |xs| - i
  {
    if i < |xs| {
      if IsScript(xs[i]) {
        var next := RemoveFirst(xs, xs[i]);
        assert StripScripts(xs, i) == StripScripts(next, i + 1);
        RemovalKeepsUnvisited(xs, i, v);
        StripScriptsKeepsUnvisited(next, i + 1, v);
      } else {
        assert StripScripts(xs, i) == StripScripts(xs, i + 1);
        StripScriptsKeepsUnvisited(xs, i + 1, v);
      }
    }
  }

  /** After a removal the next element is never examined: when the argument at the
      iterator's position is a script, the one after it survives even if it is a script
      too (unless it recurs later). */
  lemma StripScriptsSkipsNext(xs: seq<string>, i: nat)
    requires i + 1 < |xs| && IsScript(xs[i])
    requires forall j :: i + 2 <= j < |xs| ==> xs[j] != xs[i + 1]
    ensures xs[i + 1] in StripScripts(xs, i)
  {
    var next := RemoveFirst(xs, xs[i]);
    RemoveFirstShiftsTail(xs, i);
    assert next[i] == xs[i + 1];
    assert forall j :: i + 1 <= j < |next| ==> next[j] == xs[j + 1];
    assert StripScripts(xs, i) == StripScripts(next, i + 1);
    StripScriptsKeepsUnvisited(next, i + 1, xs[i + 1]);
  }

  /** A list without scripts passes the `.py` loop unchanged. */
  lemma {:induction false} StripScriptsNoScripts(xs: seq<string>, i: nat)
    requires forall j :: 0 <= j < |xs| ==> !IsScript(xs[j])
    ensures StripScripts(xs, i) == xs
    decreases |xs| - i
  {
    if i < |xs| {
      StripScriptsNoScripts(xs, i + 1);
    }
  }

  /** The unrecognised arguments `updateOptions` returns. */
  function Leftovers(remaining: seq<string>): (r: seq<string>)
    ensures IsSubseq(r, remaining)
    ensures multiset(r) <= multiset(remaining) - multiset(AllowedFlags)
    ensures forall x :: !IsScript(x) ==> multiset(r)[x] == (multiset(remaining) - multiset(AllowedFlags))[x]
    ensures |remaining| > 0 && IsScript(remaining[0]) ==> multiset(r)[remaining[0]] < multiset(remaining)[remaining[0]]
  {
    var stripped := StripFlags(remaining, AllowedFlags);
    var r := StripScripts(stripped, 0);
    SubseqTrans(r, stripped, remaining);
    LeadingScriptRemoved(remaining);
    r
  }

  /** A script at the front survives the flag pass at the front, so the `.py` loop
      examines it first and drops a copy of it. */
  lemma LeadingScriptRemoved(remaining: seq<string>)
    ensures var stripped := StripFlags(remaining, AllowedFlags);
      |remaining| > 0 && IsScript(remaining[0]) ==>
        multiset(StripScripts(stripped, 0))[remaining[0]] < multiset(remaining)[remaining[0]]
  {
    if |remaining| > 0 && IsScript(remaining[0]) {
      var stripped := StripFlags(remaining, AllowedFlags);
      StripFlagsKeepsHead(remaining, AllowedFlags);
      assert multiset(stripped)[remaining[0]] <= multiset(remaining)[remaining[0]];
    }
  }

  /** The flag pass removes the first `-i`, then the first `--init`. */
  lemma StripAllowedFlags(remaining: seq<string>)
    ensures StripFlags(remaining, AllowedFlags) == RemoveIfPresent(RemoveIfPresent(remaining, "-i"), "--init")
  {
    StripFlagsSteps(remaining, "-i", ["--init"]);
  }

  /** Without script arguments the leftovers are the input minus the first copy of each
      allowed flag. */
  lemma LeftoversWithoutScripts(remaining: seq<string>)
    requires forall j :: 0 <= j < |remaining| ==> !IsScript(remaining[j])
    ensures Leftovers(remaining) == RemoveIfPresent(RemoveIfPresent(remaining, "-i"), "--init")
  {
    StripAllowedFlags(remaining);
    var s := StripFlags(remaining, AllowedFlags);
    forall j | 0 <= j < |s|
      ensures !IsScript(s[j])
    {
      assert s[j] in multiset(s);
      assert s[j] in multiset(remaining);
      var k :| 0 <= k < |remaining| && remaining[k] == s[j];
    }
    StripScriptsNoScripts(s, 0);
  }

  lemma StripFlagsInitExample()
    ensures StripFlags(["--init", "a.py", "b.py", "-x"], AllowedFlags) == ["a.py", "b.py", "-x"]
  {
    var xs := ["--init", "a.py", "b.py", "-x"];
    assert "-i" !in xs;
    assert StripFlags(xs, AllowedFlags) == StripFlags(xs, ["--init"]);
    assert RemoveFirst(xs, "--init") == xs[1..];
    assert StripFlags(xs, ["--init"]) == StripFlags(xs[1..], []);
  }

  lemma StripScriptsSkipExample()
    ensures StripScripts(["a.py", "b.py", "-x"], 0) == ["b.py", "-x"]
  {
    assert RemoveFirst(["a.py", "b.py", "-x"], "a.py") == ["b.py", "-x"];
    assert StripScripts(["b.py", "-x"], 2) == ["b.py", "-x"];
  }

  /** `--init` is accepted, `a.py` is removed and `b.py`, shifted into its place, is skipped. */
  lemma LeftoversSkipExample()
    ensures Leftovers(["--init", "a.py", "b.py", "-x"]) == ["b.py", "-x"]
  {
    StripFlagsInitExample();
    StripScriptsSkipExample();
  }

  lemma StripScriptsFirstCopyExample()
    ensures StripScripts(["x.py", "b.py", "c", "b.py"], 0) == ["c", "b.py"]
  {
    assert RemoveFirst(["x.py", "b.py", "c", "b.py"], "x.py") == ["b.py", "c", "b.py"];
    assert RemoveFirst(["b.py", "c", "b.py"], "b.py") == ["c", "b.py"];
    assert StripScripts(["c", "b.py"], 3) == ["c", "b.py"];
  }

  lemma StripFlagsNoneExample()
    ensures StripFlags(["x.py", "b.py", "c", "b.py"], AllowedFlags) == ["x.py", "b.py", "c", "b.py"]
  {
    var xs := ["x.py", "b.py", "c", "b.py"];
    assert "-i" !in xs && "--init" !in xs;
    assert StripFlags(xs, ["--init"]) == xs;
  }

  /** `list.remove` drops the FIRST equal element, here an earlier copy of `b.py`. */
  lemma LeftoversFirstCopyExample()
    ensures Leftovers(["x.py", "b.py", "c", "b.py"]) == ["c", "b.py"]
  {
    StripFlagsNoneExample();
    StripScriptsFirstCopyExample();
  }

  // ---------------------------------------------------------------------------
  // The save directory
  // ---------------------------------------------------------------------------

  /** `if saveDir[-1] != '/': saveDir += '/'`; an empty value raises IndexError. */
  function NormalizeSaveDir(d: string): (r: Result<string, PyException>)
    ensures r.Err? <==> d == ""
    ensures r.Ok? ==> |r.value| > 0 && r.value[|r.value| - 1] == '/'
    ensures r.Ok? ==> |d| <= |r.value| <= |d| + 1 && r.value[..|d|] == d
    ensures r.Ok? ==> (r.value == d <==> d[|d| - 1] == '/')
  {
    if |d| == 0 then Err(IndexError)
    else if d[|d| - 1] != '/' then Ok(d + "/")
    else Ok(d)
  }

  lemma NormalizeSaveDirIdempotent(d: string, e: string)
    requires NormalizeSaveDir(d) == Ok(e)
    ensures NormalizeSaveDir(e) == Ok(e)
  {
  }

  /** What happened when the normalised directory was checked on disk. */
  datatype DirCheck =
    | IsDirectory
    | MadeDirectory
    | MakeFailed(fallbackMade: bool)  // whether making `<cwd>/outputData/` then succeeded

  /** The `saveDir` step of `updateOptions`; `None` when no such option exists. */
  function SettleSaveDir(saveDir: Option<string>, check: DirCheck, cwd: string): (r: Result<Option<string>, PyException>)
    ensures saveDir.None? ==> r == Ok(None)
    ensures saveDir == Some("") ==> r == Err(IndexError)
    ensures r.Ok? && saveDir.Some? ==>
      r.value.Some? && |r.value.value| > 0 && r.value.value[|r.value.value| - 1] == '/'
    ensures r.Ok? && saveDir.Some? && !check.MakeFailed? ==> Ok(r.value.value) == NormalizeSaveDir(saveDir.value)
    ensures saveDir.Some? && saveDir.value != "" && check.MakeFailed? ==>
      r == (if check.fallbackMade then Ok(Some(cwd + "/outputData/")) else Err(OSError))
  {
    match saveDir
    case None => Ok(None)
    case Some(d) =>
      match NormalizeSaveDir(d)
      case Err(e) => Err(e)
      case Ok(n) =>
        match check
        case IsDirectory => Ok(Some(n))
        case MadeDirectory => Ok(Some(n))
        case MakeFailed(fallbackMade) =>
          if fallbackMade then Ok(Some(cwd + "/outputData/")) else Err(OSError)
  }

  /** `updateOptions` after argparse has split the command line into the
      `saveDir` value (if that option exists) and the leftover arguments. */
  function UpdateOptions(saveDir: Option<string>, remaining: seq<string>, check: DirCheck, cwd: string)
    : (r: Result<(Option<string>, seq<string>), PyException>)
    ensures r.Ok? <==> SettleSaveDir(saveDir, check, cwd).Ok?
    ensures r.Ok? ==> IsSubseq(r.value.1, remaining) && r.value.1 == Leftovers(remaining)
    ensures r.Ok? ==> r.value.0 == SettleSaveDir(saveDir, check, cwd).value
    // A corollary of the clause above, stated for callers:
    ensures r.Ok? && saveDir.Some? ==>
      r.value.0.Some? && |r.value.0.value| > 0 && r.value.0.value[|r.value.0.value| - 1] == '/'
  {
    var leftovers := Leftovers(remaining);
    match SettleSaveDir(saveDir, check, cwd)
    case Err(e) => Err(e)
    case Ok(dir) => Ok((dir, leftovers))
  }
}

=== FILE: pytext.dfy ===
/** Python string operations the helpers rely on: `str.split(sep)`,
    `sep.join(parts)`, `os.path.basename` and the slice `s[:-n]`. */
module PyText {

  /** `s.split(c)` for a one-character separator: the maximal runs between
      separators, so there is always at least one part. */
  function Split(s: string, c: char): (parts: seq<string>)
    ensures |parts| >= 1
    ensures forall i :: 0 <= i < |parts| ==> c !in parts[i]
    ensures |parts[0]| <= |s| && parts[0] == s[..|parts[0]|]
    ensures |parts[0]| < |s| ==> s[|parts[0]|] == c
    decreases |s|
  {
    if |s| == 0 then [""]
    else
      var rest := Split(s[1..], c);
      if s[0] == c then [""] + rest
      else [[s[0]] + rest[0]] + rest[1..]
  }

  /** `c.join(parts)`. */
  function Join(parts: seq<string>, c: char): (s: string)
    ensures |parts| > 0 ==> |parts[0]| <= |s| && s[..|parts[0]|] == parts[0]
    ensures |parts| > 1 ==> |parts[0]| < |s| && s[|parts[0]|] == c
    decreases |parts|
  {
    if |parts| == 0 then ""
    else if |parts| == 1 then parts[0]
    else parts[0] + [c] + Join(parts[1..], c)
  }

  /** Joining the parts of a split gives back the original string. */
  lemma {:induction false} JoinSplit(s: string, c: char)
    ensures Join(Split(s, c), c) == s
    decreases |s|
  {
    if |s| > 0 {
      var rest := Split(s[1..], c);
      JoinSplit(s[1..], c);
      if s[0] == c {
        assert Split(s, c) == [""] + rest;
        assert ([""] + rest)[1..] == rest;
        assert s == [c] + s[1..];
      } else if |rest| == 1 {
        assert s == [s[0]] + s[1..];
      } else {
        var p := Split(s, c);
        assert p[0] == [s[0]] + rest[0];
        assert p[1..] == rest[1..];
        assert Join(rest, c) == rest[0] + [c] + Join(rest[1..], c);
        assert s == [s[0]] + s[1..];
      }
    }
  }

  /** Splitting a string that starts with a separator-free piece and a separator. */
  lemma {:induction false} SplitAfterPiece(a: string, t: string, c: char)
    requires c !in a
    ensures Split(a + [c] + t, c) == [a] + Split(t, c)
    decreases |a|
  {
    var s := a + [c] + t;
    if |a| == 0 {
      assert s[0] == c && s[1..] == t;
    } else {
      assert s[0] == a[0] && s[1..] == a[1..] + [c] + t;
      SplitAfterPiece(a[1..], t, c);
      assert [a[0]] + a[1..] == a;
    }
  }

  /** A separator-free string splits into itself alone. */
  lemma {:induction false} SplitNoSeparator(a: string, c: char)
    requires c !in a
    ensures Split(a, c) == [a]
    decreases |a|
  {
    if |a| > 0 {
      SplitNoSeparator(a[1..], c);
      assert [a[0]] + a[1..] == a;
    }
  }

  /** Splitting a join of separator-free parts gives back the parts. */
  lemma {:induction false} SplitJoin(parts: seq<string>, c: char)
    requires |parts| >= 1
    requires forall i :: 0 <= i < |parts| ==> c !in parts[i]
    ensures Split(Join(parts, c), c) == parts
    decreases |parts|
  {
    if |parts| == 1 {
      SplitNoSeparator(parts[0], c);
    } else {
      SplitJoin(parts[1..], c);
      SplitAfterPiece(parts[0], Join(parts[1..], c), c);
      assert [parts[0]] + parts[1..] == parts;
    }
  }

  /** Joining all parts equals joining all but the last, a separator and the last. */
  lemma {:induction false} JoinSnoc(parts: seq<string>, c: char)
    requires |parts| >= 2
    ensures Join(parts, c) == Join(parts[..|parts| - 1], c) + [c] + parts[|parts| - 1]
    decreases |parts|
  {
    var n := |parts|;
    if n > 2 {
      JoinSnoc(parts[1..], c);
      assert parts[1..][..n - 2] == parts[..n - 1][1..];
    }
  }

  /** `c.join(s.split(c)[:-1])`: everything before the last separator. */
  function BeforeLast(s: string, c: char): (r: string)
    ensures c !in s ==> r == ""
    ensures c in s ==> |r| < |s| && r == s[..|r|] && s[|r|] == c && c !in s[|r| + 1..]
  {
    var parts := Split(s, c);
    var r := Join(parts[..|parts| - 1], c);
    JoinSplit(s, c);
    if |parts| == 1 then
      assert s == parts[0];
      r
    else
      JoinSnoc(parts, c);
      assert s == r + [c] + parts[|parts| - 1];
      assert s[|r| + 1..] == parts[|parts| - 1];
      r
  }

  /** `os.path.basename(p)` (POSIX): the text after the last `/`. */
  function Basename(p: string): (b: string)
    ensures '/' !in b
    ensures |b| <= |p| && b == p[|p| - |b|..]
    ensures |b| < |p| ==> p[|p| - |b| - 1] == '/'
    decreases |p|
  {
    if |p| == 0 || p[|p| - 1] == '/' then ""
    else Basename(p[..|p| - 1]) + [p[|p| - 1]]
  }

  /** The slice `s[:-n]` for `n > 0`: drops the last `n` characters, or everything. */
  function DropLast(s: string, n: nat): (r: string)
    requires n > 0
    ensures |s| <= n ==> r == ""
    ensures |s| > n ==> |r| == |s| - n
    ensures r == s[..|r|]
  {
    if |s| <= n then "" else s[..|s| - n]
  }
}
